=== FILE: README.md ===
# dylibx vulnerability analysis in Dafny

This project models the analysis engine of dylibx, a scanner for dylib
hijacking in macOS application bundles. For each architecture slice of an
application's main executable, the engine decides whether the slice can be
injected. That depends on two code-signing flag bits and the
disable-library-validation entitlement. If the slice can be injected, every
dylib load is classified:

- a **weak** candidate: a weak load location that does not exist;
- an **rpath** candidate: an `@rpath` location searched before the first existing one;
- a **proxy** candidate: the resolved path of any other load.

Paths under `/System/` and `/usr/` are never reported.

Modules, one per component of `dylibx.go`:

- `GoStrings` (`strings.dfy`) has `HasPrefix`, `Index` and `ReplaceAll` with Go's semantics. `ReplaceAll` follows Go's leftmost-occurrence loop. It is proved equal to a character-by-character scan.
- `CodeSign` (`codesign.dfy`) has `RUNTIME` = 0x10000 and `REQUIRE_LV` = 0x2000 over a `bv32` flag word, plus the per-slice injectability test.
- `Sip` (`sip.dfy`) has the protected-path prefix classifier `InSIPPath`.
- `LoadPath` (`loadpath.dfy`) has the token constants, `ParseProxyPath`, `ParseRPaths` and `JoinPath`.
- `Dylibx` (`analysis.dfy`) has the input and result datatypes and the per-slice loop body of `ScanApp`, as pure functions.
- `Scenarios` (`scenarios.dfy`) has small worked cases: the rpath boundary, the weak rule, a hardened binary, protected, unprotected and relative proxy loads, and a missing bundled framework.

Design choices:

- `Exist` (a `stat` call) is an oracle parameter `exist: string -> bool`.
- The directory `path.Dir(ExecutablePath)` is a parameter `exeDir`.
- `path.IsAbs` is "starts with `/`".

The model keeps the code's behaviour where it differs from the obvious reading:

- Every substitution uses `ReplaceAll`. A token is replaced wherever it occurs in the string, not only at its head.
- `joinPath` receives the full executable path, not its directory (dylibx.go:88 and :103). So a weak `@executable_path/x` load expands to `<executable file>/x`. `WeakCandidatesOf` states this.
- `ParseRPaths` and `ParseProxyPath` receive the executable's directory. Both treat `@loader_path` like `@executable_path`.
- `ParseRPaths` rewrites a slice's own search-path list, so also running it for skipped slices has no visible effect. The model resolves the list per slice.
- A weak load starting with `@loader_path` gets no candidates. The weak-load switch hands every `@`-led name to `joinPath`, and `joinPath` has cases only for `@rpath` and `@executable_path` (dylibx.go:235-242). The same holds for any other unknown token.
- A load that does not start with `@rpath` is a proxy load, whatever it starts with.
- Flags and entitlement are reported from slice 0, and findings from all injectable slices build up in one list.
- The model asks for at least one slice, because `machoInfo[0]` is read without a check.

## Model

| member | source | states |
|---|---|---|
| GoStrings.HasPrefix | dylibx.go:199 | `strings.HasPrefix`: holds iff the prefix is no longer than the string and agrees with it character by character. |
| GoStrings.Index | dylibx.go:215 | `strings.Index`, used inside Go's `ReplaceAll`: the result is -1 or a position at which `sub` fits inside `s`. Leftmost-ness is stated by `IndexLeftmost`. |
| GoStrings.ReplaceAll | dylibx.go:215 | `strings.ReplaceAll` with a non-empty search string: a string in which `find` occurs nowhere is returned unchanged. Its full meaning is stated by `ReplaceAllIsScan`. |
| GoStrings.ReplaceAllIsScan | dylibx.go:238 | Go's `ReplaceAll` (take the leftmost occurrence, copy what precedes it, continue after it) equals a left-to-right scan that replaces `find` wherever it starts. So every non-overlapping occurrence is replaced, not only a leading one. |
| GoStrings.IndexLeftmost | dylibx.go:215 | `Index` returns an occurrence with no occurrence before it. A result of -1 means there is none. |
| GoStrings.ReplaceAllLeading | dylibx.go:214-217 | Replacing a leading token yields the replacement followed by the processed rest. The result starts with the replacement. |
| GoStrings.ReplaceAllNoFirstChar | dylibx.go:236-238 | A string without the token's first character passes through `ReplaceAll` unchanged. |
| CodeSign.IsRuntime | dylibx.go:140-142 | Holds iff bit 16 (`CS_RUNTIME` = 0x10000) is set, which is also iff OR-ing the bit in leaves the word unchanged. |
| CodeSign.IsLibraryValidation | dylibx.go:144-146 | Holds iff bit 13 (`CS_REQUIRE_LV` = 0x2000) is set, which is also iff OR-ing the bit in leaves the word unchanged. |
| CodeSign.PolicyBits | dylibx.go:14-17 | The two constants are the single bits 16 and 13, and they are disjoint. |
| CodeSign.SliceInjectable | dylibx.go:76-79 | With library validation disabled, any flag word is injectable. Otherwise a slice is injectable iff neither policy bit is set (`flags & 0x12000 == 0`). |
| CodeSign.InjectableAntitone | dylibx.go:76-79 | Setting more flag bits never turns a non-injectable slice into an injectable one. |
| Sip.AnyPrefix | dylibx.go:197-204 | The loop over the prefix list holds iff some listed prefix is a prefix of the path. |
| Sip.InSIPPath | dylibx.go:190-204 | Holds iff the path starts with `/System/` or `/usr/`. |
| Sip.SipPathsAbsolute | dylibx.go:190-195 | Every protected path starts with `/`. |
| Sip.OutsideSip | dylibx.go:190-204 | An absolute path whose second character is neither `S` nor `u` is not protected. |
| LoadPath.TokensExclusive | dylibx.go:207-211 | A string starts with at most one of `@rpath`, `@executable_path` and `@loader_path`. |
| LoadPath.NoTokenWithoutAt | dylibx.go:207-211 | A string whose first character is not `@` starts with no token. |
| LoadPath.ParseProxyPath | dylibx.go:213-220 | A path with neither leading directory token is returned unchanged. Otherwise the result is the executable directory followed by the rest, with every further occurrence of the same token also replaced. |
| LoadPath.ProxyPathAnchored | dylibx.go:213-218 | A proxy path that started with a directory token starts with the executable directory once resolved. |
| LoadPath.ParseRPaths | dylibx.go:222-231 | Length and order are kept. Entries without a leading directory token are unchanged. Entries with one start with the executable directory. |
| LoadPath.ParseRPathsAgreesWithProxy | dylibx.go:222-231 | Each resolved search path equals `ParseProxyPath` of its entry, so both resolvers treat the tokens alike. |
| LoadPath.ParseRPathsTokenFree | dylibx.go:222-231 | On token-free input, resolution is the identity and therefore idempotent. |
| LoadPath.ParseRPathsIdempotent | dylibx.go:222-231 | Resolution is idempotent on any input when the directory is non-empty and does not start with `@`. |
| LoadPath.JoinPath | dylibx.go:233-244 | An `@rpath` name yields exactly one candidate per search path. An `@executable_path` name yields exactly one. Any other name yields none. |
| LoadPath.JoinPathRPath | dylibx.go:236-239 | Candidate i is search path i followed by the rest of the name, with every later `@rpath` also replaced by search path i. So it starts with search path i, and candidates follow search order. |
| LoadPath.JoinPathExecutable | dylibx.go:240-241 | The single candidate of an `@executable_path` name is the given executable path followed by the rest. |
| Dylibx.VulnTypeNames | dylibx.go:96-130 | The three `Type` strings are `weak`, `rpath` and `proxy` (dylibx.go:96, :122, :130), and they are distinct, so the category of a finding can be read back from its string. |
| Dylibx.IsAbs | dylibx.go:85 | `path.IsAbs`: holds iff the path is non-empty and starts with `/`. |
| Dylibx.Injectable | dylibx.go:76-79 | A slice is analysed iff it is not the case that it is hardened or requires library validation while lacking the entitlement. Equivalently, iff it has the entitlement or neither bit of `0x12000` is set. |
| Dylibx.WeakCandidatesOf | dylibx.go:84-89 | An absolute weak name is its own single candidate. An `@rpath` weak name has exactly the `joinPath` candidates: one per search path, candidate i being the name with `@rpath` replaced by search path i. An `@executable_path` weak name has the single candidate rooted at the full executable path. Any other name, including an `@loader_path` one, has none. |
| Dylibx.WeakCandidates | dylibx.go:82-90 | Every candidate of every weak load is collected, and every collected candidate is a candidate of some weak load. The order is fixed by `WeakCandidatesSingle` and `WeakCandidatesAppend`: load by load, and within a load in `WeakCandidatesOf` order. |
| Dylibx.WeakCandidatesSingle | dylibx.go:82-90 | A single weak load contributes exactly its own candidates, in their own order. |
| Dylibx.WeakItems | dylibx.go:91-99 | A weak candidate is reported iff it is neither protected nor existing. Every item is a `weak` item for a candidate. |
| Dylibx.WeakItemsAppend | dylibx.go:91-99 | Weak findings are produced in candidate order (concatenation is preserved). |
| Dylibx.WeakCandidatesAppend | dylibx.go:82-90 | Weak candidates are produced in load order (concatenation is preserved). |
| Dylibx.FirstExisting | dylibx.go:107-116 | The boundary index: no candidate before it exists, and the candidate at it exists unless it equals the count. |
| Dylibx.NonSipItems | dylibx.go:117-125 | Reports exactly the non-protected paths of the list, with the given category. |
| Dylibx.NonSipItemsAppend | dylibx.go:117-125 | Non-protected findings keep the order of their paths. |
| Dylibx.RPathItems | dylibx.go:102-125 | Every reported rpath path is one of the candidates, and none is protected or existing. Every non-protected candidate with no existing candidate at or before it is reported. |
| Dylibx.RPathBoundaryRule | dylibx.go:107-125 | For any index with no existing candidate before it and an existing one at it (or the end of the list), the findings are exactly the non-protected candidates before it, in order. |
| Dylibx.DylibItemsOf | dylibx.go:101-134 | An `@rpath` load reports exactly the unprotected `joinPath` candidates before the first existing one, in search order, as `rpath` items; nothing at or after the first existing candidate is reported. Any other load reports nothing iff its resolved proxy path is protected, and otherwise only that path as a `proxy` item. |
| Dylibx.DylibItemsOfBoundary | dylibx.go:102-125 | For any index with no existing candidate of the load before it and an existing one at it (or the end of the list), the load's findings are exactly its unprotected candidates before that index, in order. |
| Dylibx.ProxyRule | dylibx.go:126-134 | A non-`@rpath` load yields exactly one `proxy` item, its `ParseProxyPath` result, unless that path is protected. The result does not depend on the existence oracle. |
| Dylibx.DylibItems | dylibx.go:101-135 | Every finding of every ordinary load is reported, and every reported item is a finding of some load. None is protected, and every non-proxy item is an rpath item that does not exist. The order is fixed by `DylibItemsSingle` and `DylibItemsAppend`: load by load, and within a load in `DylibItemsOf` order. |
| Dylibx.DylibItemsSingle | dylibx.go:101-135 | A single ordinary load contributes exactly its own findings, in their own order. |
| Dylibx.DylibItemsAppend | dylibx.go:101-135 | Ordinary-load findings come in load order: the findings of a concatenation of loads are the concatenation of their findings. |
| Dylibx.SliceItems | dylibx.go:73-135 | A slice's findings are never protected, its weak and rpath findings never exist, and all weak findings come before all other findings. The result is exactly the weak items of the slice's weak candidates, followed by the ordinary-load findings, both against the slice's resolved search paths. |
| Dylibx.SliceItemsMembers | dylibx.go:73-135 | An item is a finding of the slice iff it is a weak item for an unprotected, non-existing weak candidate, or a finding of one of the slice's ordinary loads, against the slice's resolved search paths. |
| Dylibx.AnyInjectable | dylibx.go:73-80 | Holds iff some slice passes the library-validation check. |
| Dylibx.Findings | dylibx.go:73-136 | With no injectable slice there are no findings. No finding is protected. No weak or rpath finding exists. |
| Dylibx.FindingsAppend | dylibx.go:73-136 | Findings build up across slices: adding a slice appends its findings if it is injectable and nothing otherwise. |
| Dylibx.FindingsBySlice | dylibx.go:73-136 | Every finding of an injectable slice is reported, and every reported finding comes from an injectable slice. |
| Dylibx.ScanApp | dylibx.go:60-137 | Flags and entitlement come from slice 0. `Injectable` holds iff some slice is injectable. A non-injectable result has no findings. No finding is protected. No weak or rpath finding exists. The findings are exactly `Findings` over all slices, so they come slice by slice, in the order fixed by `FindingsAppend`. |
| Dylibx.ScanAppBySlice | dylibx.go:73-136 | The application reports every finding of each injectable slice, and every reported item is a finding of some injectable slice. |
| Dylibx.ScanAppReportsWeak | dylibx.go:91-99 | A candidate of any weak load of an injectable slice that is neither protected nor existing appears in the result as a `weak` item. |
| Dylibx.ScanAppReportsProxy | dylibx.go:126-134 | A non-`@rpath` load of an injectable slice whose resolved path is not protected appears in the result as a `proxy` item at that path. |
| Dylibx.ScanAppReportsRPath | dylibx.go:102-125 | Candidate k of an `@rpath` load of an injectable slice appears in the result as an `rpath` item when it is not protected and no candidate up to k exists. |
| Scenarios.RPathFirstExistingStops | dylibx.go:107-125 | For candidates `[a, b, c]` where only `b` exists, exactly `a` is reported. |
| Scenarios.WeakBothOrSecond | dylibx.go:91-99 | For weak candidates `[a, b]`, both are reported if neither exists, and only `b` if `a` exists. |
| Scenarios.HardenedRuntime | dylibx.go:76-80 | With flags 0x10000 and no entitlement, the result is not injectable and has no findings, whatever the loads. With the entitlement, it is injectable. |
| Scenarios.ProtectedProxyLoad | dylibx.go:126-134 | The proxy load `/usr/lib/libfoo.dylib` is never reported. |
| Scenarios.UnprotectedProxyLoad | dylibx.go:126-134 | An absolute proxy load whose first component starts with neither `S` nor `u` is reported unchanged as one `proxy` item. |
| Scenarios.RelativeProxyLoad | dylibx.go:126-134 | A relative proxy load that starts with no token is never protected, so it is reported unchanged as one `proxy` item. |
| Scenarios.SingleSearchPath | dylibx.go:236-239 | With one search path `rp`, `@rpath` + `rest` has the single candidate `rp + rest` when `rest` holds no `@`. |
| Scenarios.SingleAbsentCandidate | dylibx.go:107-125 | A lone candidate that is neither protected nor existing is reported. |
| Scenarios.BundledFrameworkMissing | dylibx.go:60-137 | Take an unsigned slice with one absolute search path and a missing `@rpath` framework. The result is injectable, with exactly one `rpath` finding at the framework's location. |

## Left out

- `GetExecutablePath`, `parseInfoPlist` and `AutoScanApps` (dylibx.go:36-58, 148-182) are left out: they stat files, read `Info.plist` and list `/Applications`. Their errors, and `ParseMacho`'s, end `ScanApp` before the modelled part begins.
- `Exist` (dylibx.go:184-187) is an `os.Stat` call, so the model takes it as the oracle `exist`. `Exist` reports any `stat` error, not only a missing file, as "does not exist", and the oracle covers that.
- The oracle `exist` is one fixed function for the whole scan. The source `stat`s each candidate afresh (dylibx.go:92 and :109), so a filesystem that changes during a scan is not modelled.
- Strings are sequences of characters, while Go strings are byte sequences. A Go string holding invalid UTF-8 has no counterpart here. Prefix tests and replacement of the ASCII tokens and roots are unaffected.
- `path.Dir` is not modelled, because path cleaning is outside the core. The directory is the parameter `exeDir`.
- The `0x%x` rendering of `CodeSignFlags` (dylibx.go:70) is left out as presentation. The result keeps the raw 32-bit word.
- macho.go is not part of this model. It wraps an external Mach-O parser and plist decoder. Its output is the input datatype `MachOInfo`, cut down to the fields the analysis reads: search paths, loads, weak loads, flags and the entitlement. Magic, CPU, file type, dylinker and dylib versions are dropped.
- cmd/dylibx.go (console printing) and the two test files are left out. The tests only log results for installed applications.
- GoStrings.ReplaceAll: a call with an empty search string is not modelled, because every call in dylibx.go passes a non-empty token constant.
- A corrected variant of dylibx.go:88 is not modelled. Expanding a weak `@executable_path` load against the executable file rather than its directory may be unintended, but the model keeps it as written.

=== FILE: analysis.dfy ===
/** The vulnerability analysis of `ScanApp`: for every architecture slice of
    an application's main executable it decides whether the slice can be
    injected and, if so, classifies each dylib load as a weak, rpath or
    proxy hijack candidate. Filesystem existence (`Exist`) is an oracle
    `exist`, and the executable's directory (`path.Dir` of its path) is the
    parameter `exeDir`. */
module Dylibx {
  import opened GoStrings
  import opened CodeSign
  import opened Sip
  import opened LoadPath

  /** A dylib load command; the analysis reads only its path. */
  datatype Dylib = Dylib(name: string)

  /** The parser's description of one architecture slice (`MachOInfo`),
      restricted to the fields the analysis reads. `disableLibraryValidation`
      is the `com.apple.security.cs.disable-library-validation` entitlement. */
  datatype MachOInfo = MachOInfo(
    lcRpaths: seq<string>,
    dylibLoads: seq<Dylib>,
    weakDylibLoads: seq<Dylib>,
    codeSignFlags: Flags,
    disableLibraryValidation: bool)

  /** The category of a finding; `Name` is the `Type` string it carries. */
  datatype VulnType = Weak | RPath | Proxy {
    function Name(): string {
      match this
      case Weak => "weak"
      case RPath => "rpath"
      case Proxy => "proxy"
    }
  }

  /** The `Type` strings of the three categories are distinct, so a
      finding's category can be read back from its string. */
  lemma VulnTypeNames(t: VulnType, u: VulnType)
    ensures t.Name() == u.Name() ==> t == u
    ensures t.Name() in ["weak", "rpath", "proxy"]
  {
  }

  /** One hijackable load location. */
  datatype VulnItem = VulnItem(vulnType: VulnType, path: string)

  /** The result for one application. The flag word is kept as a number;
      its `0x%x` rendering is presentation. */
  datatype AppVulnerable = AppVulnerable(
    appPath: string,
    executablePath: string,
    codeSignFlags: Flags,
    disableLibraryValidation: bool,
    injectable: bool,
    dylibs: seq<VulnItem>)

  /** `path.IsAbs`: the path starts with a slash. */
  predicate IsAbs(p: string)
    ensures IsAbs(p) <==> |p| > 0 && p[0] == '/'
  {
    HasPrefix(p, "/")
  }

  /** The slice passes the library-validation check of `ScanApp`: it is
      skipped exactly when it is hardened or requires library validation and
      lacks the entitlement. */
  predicate Injectable(m: MachOInfo)
    ensures Injectable(m) <==>
      !((IsRuntime(m.codeSignFlags) || IsLibraryValidation(m.codeSignFlags)) && !m.disableLibraryValidation)
    ensures Injectable(m) <==> m.disableLibraryValidation || m.codeSignFlags & (RUNTIME | REQUIRE_LV) == 0
  {
    SliceInjectable(m.codeSignFlags, m.disableLibraryValidation)
  }

  // ---------------------------------------------------------------- weak loads

  /** The candidates of one weak load: an absolute path is its own single
      candidate; an `@rpath` load has one candidate per search path; an
      `@executable_path` load has one candidate, rooted at the executable's
      full path (not its directory); any other name, including one led by
      `@loader_path`, has none. Candidate `i` of an `@rpath` load is the
      load with `@rpath` replaced by search path `i`. */
  function WeakCandidatesOf(name: string, exePath: string, rpaths: seq<string>): (r: seq<string>)
    ensures IsAbs(name) ==> r == [name]
    ensures HasPrefix(name, RPathPre) ==> r == JoinPath(name, exePath, rpaths)
    ensures HasPrefix(name, RPathPre) ==>
      |r| == |rpaths| && forall i :: 0 <= i < |rpaths| ==> r[i] == ReplaceAll(name, RPathPre, rpaths[i])
    ensures HasPrefix(name, ExecutablePathPre) ==>
      r == [exePath + ReplaceAll(name[|ExecutablePathPre|..], ExecutablePathPre, exePath)]
    ensures !IsAbs(name) && !HasPrefix(name, RPathPre) && !HasPrefix(name, ExecutablePathPre) ==> r == []
  {
    if IsAbs(name) then [name]
    else if HasPrefix(name, "@") then
      if HasPrefix(name, ExecutablePathPre) then
        JoinPathExecutable(name, exePath, rpaths);
        JoinPath(name, exePath, rpaths)
      else JoinPath(name, exePath, rpaths)
    else []
  }

  /** The candidates of all weak loads, in load order. */
  function WeakCandidates(weaks: seq<Dylib>, exePath: string, rpaths: seq<string>): (r: seq<string>)
    ensures forall i, c :: 0 <= i < |weaks| && c in WeakCandidatesOf(weaks[i].name, exePath, rpaths) ==> c in r
    ensures forall c :: c in r ==>
      exists i :: 0 <= i < |weaks| && c in WeakCandidatesOf(weaks[i].name, exePath, rpaths)
    decreases |weaks|
  {
    if |weaks| == 0 then []
    else
      var head := WeakCandidatesOf(weaks[0].name, exePath, rpaths);
      var rest := WeakCandidates(weaks[1..], exePath, rpaths);
      assert forall i :: 1 <= i < |weaks| ==> weaks[1..][i - 1] == weaks[i];
      head + rest
  }

  /** The weak findings: a candidate is reported exactly when it is neither
      protected nor existing. */
  function WeakItems(cands: seq<string>, exist: string -> bool): (r: seq<VulnItem>)
    ensures |r| <= |cands|
    ensures forall it :: it in r ==>
      it.vulnType == Weak && it.path in cands && !InSIPPath(it.path) && !exist(it.path)
    ensures forall c :: c in cands && !InSIPPath(c) && !exist(c) ==> VulnItem(Weak, c) in r
    decreases |cands|
  {
    if |cands| == 0 then []
    else
      var c := cands[0];
      var rest := WeakItems(cands[1..], exist);
      assert forall x :: x in cands[1..] ==> x in cands;
      assert forall x :: x in cands ==> x == c || x in cands[1..];
      if InSIPPath(c) || exist(c) then rest else [VulnItem(Weak, c)] + rest
  }

  /** Weak findings are produced in candidate order: the findings of a
      concatenation are the concatenation of the findings. */
  lemma {:induction false} WeakItemsAppend(a: seq<string>, b: seq<string>, exist: string -> bool)
    ensures WeakItems(a + b, exist) == WeakItems(a, exist) + WeakItems(b, exist)
    decreases |a|
  {
    if |a| > 0 {
      assert (a + b)[0] == a[0];
      assert (a + b)[1..] == a[1..] + b;
      WeakItemsAppend(a[1..], b, exist);
    } else {
      assert a + b == b;
    }
  }

  /** A single weak load contributes exactly its own candidates, in the
      order `WeakCandidatesOf` gives them; with `WeakCandidatesAppend` this
      pins the whole candidate list. */
  lemma WeakCandidatesSingle(w: Dylib, exePath: string, rpaths: seq<string>)
    ensures WeakCandidates([w], exePath, rpaths) == WeakCandidatesOf(w.name, exePath, rpaths)
  {
    assert [w][1..] == [];
  }

  /** Weak candidates are produced in load order. */
  lemma {:induction false} WeakCandidatesAppend(a: seq<Dylib>, b: seq<Dylib>, exePath: string, rpaths: seq<string>)
    ensures WeakCandidates(a + b, exePath, rpaths) == WeakCandidates(a, exePath, rpaths) + WeakCandidates(b, exePath, rpaths)
    decreases |a|
  {
    if |a| > 0 {
      assert (a + b)[0] == a[0];
      assert (a + b)[1..] == a[1..] + b;
      WeakCandidatesAppend(a[1..], b, exePath, rpaths);
    } else {
      assert a + b == b;
    }
  }

  // --------------------------------------------------------------- rpath loads

  /** The index of the first candidate that exists, or the number of
      candidates when none does: the dynamic linker stops its search there. */
  function FirstExisting(paths: seq<string>, exist: string -> bool): (k: nat)
    ensures k <= |paths|
    ensures forall i :: 0 <= i < k ==> !exist(paths[i])
    ensures k < |paths| ==> exist(paths[k])
    decreases |paths|
  {
    if |paths| == 0 then 0
    else if exist(paths[0]) then 0
    else 1 + FirstExisting(paths[1..], exist)
  }

  /** The paths of `ps` that are not protected, in order, as findings of
      category `t`. */
  function NonSipItems(t: VulnType, ps: seq<string>): (r: seq<VulnItem>)
    ensures |r| <= |ps|
    ensures forall it :: it in r ==> it.vulnType == t && it.path in ps && !InSIPPath(it.path)
    ensures forall p :: p in ps && !InSIPPath(p) ==> VulnItem(t, p) in r
    decreases |ps|
  {
    if |ps| == 0 then []
    else
      var rest := NonSipItems(t, ps[1..]);
      assert forall x :: x in ps[1..] ==> x in ps;
      assert forall x :: x in ps ==> x == ps[0] || x in ps[1..];
      if InSIPPath(ps[0]) then rest else [VulnItem(t, ps[0])] + rest
  }

  /** Non-protected findings keep the order of their paths. */
  lemma {:induction false} NonSipItemsAppend(t: VulnType, a: seq<string>, b: seq<string>)
    ensures NonSipItems(t, a + b) == NonSipItems(t, a) + NonSipItems(t, b)
    decreases |a|
  {
    if |a| > 0 {
      assert (a + b)[0] == a[0];
      assert (a + b)[1..] == a[1..] + b;
      NonSipItemsAppend(t, a[1..], b);
    } else {
      assert a + b == b;
    }
  }

  /** The rpath findings of one `@rpath` load's candidates: every
      non-protected candidate before the first existing one. No reported
      path exists, and a non-protected candidate that no existing candidate
      precedes is always reported. */
  function RPathItems(paths: seq<string>, exist: string -> bool): (r: seq<VulnItem>)
    ensures forall it :: it in r ==>
      it.vulnType == RPath && it.path in paths && !InSIPPath(it.path) && !exist(it.path)
    ensures forall i :: 0 <= i < |paths| ==>
      (!InSIPPath(paths[i]) && (forall j :: 0 <= j <= i ==> !exist(paths[j])) ==> VulnItem(RPath, paths[i]) in r)
  {
    var k := FirstExisting(paths, exist);
    var r := NonSipItems(RPath, paths[..k]);
    assert forall x :: x in paths[..k] ==> x in paths;
    forall i | 0 <= i < |paths| && (forall j :: 0 <= j <= i ==> !exist(paths[j]))
      ensures i < k && paths[..k][i] == paths[i]
    {
      assert k < |paths| ==> exist(paths[k]);
    }
    r
  }

  /** The boundary rule: whatever index `b` has no existing candidate before
      it and an existing one at it (or is the end of the list), the findings
      are exactly the non-protected candidates before `b`, in order. */
  lemma RPathBoundaryRule(paths: seq<string>, exist: string -> bool, b: nat)
    requires b <= |paths|
    requires forall i :: 0 <= i < b ==> !exist(paths[i])
    requires b < |paths| ==> exist(paths[b])
    ensures RPathItems(paths, exist) == NonSipItems(RPath, paths[..b])
  {
  }

  // ---------------------------------------------------- ordinary (proxy) loads

  /** The findings of one ordinary load: an `@rpath` load yields its rpath
      findings (against the resolved search paths), any other load yields
      its proxy path unless that path is protected. */
  function DylibItemsOf(name: string, exePath: string, exeDir: string, rpaths: seq<string>,
                        exist: string -> bool): (r: seq<VulnItem>)
    ensures HasPrefix(name, RPathPre) ==> r == RPathItems(JoinPath(name, exePath, rpaths), exist)
    ensures HasPrefix(name, RPathPre) ==>
      var cands := JoinPath(name, exePath, rpaths);
      r == NonSipItems(RPath, cands[..FirstExisting(cands, exist)])
    ensures HasPrefix(name, RPathPre) ==> forall it :: it in r ==>
      it.vulnType == RPath && it.path in JoinPath(name, exePath, rpaths) && !InSIPPath(it.path) && !exist(it.path)
    ensures HasPrefix(name, RPathPre) ==>
      var cands := JoinPath(name, exePath, rpaths);
      forall i :: 0 <= i < |cands| && !InSIPPath(cands[i]) && (forall j :: 0 <= j <= i ==> !exist(cands[j])) ==>
        VulnItem(RPath, cands[i]) in r
    ensures !HasPrefix(name, RPathPre) ==>
      (r == [] <==> InSIPPath(ParseProxyPath(name, exeDir)))
    ensures !HasPrefix(name, RPathPre) ==> forall it :: it in r ==> it == VulnItem(Proxy, ParseProxyPath(name, exeDir))
  {
    if HasPrefix(name, RPathPre) then
      RPathItems(JoinPath(name, exePath, rpaths), exist)
    else
      var p := ParseProxyPath(name, exeDir);
      if InSIPPath(p) then [] else [VulnItem(Proxy, p)]
  }

  /** The boundary rule for one `@rpath` load: whatever index `b` of its
      candidates has no existing candidate before it and an existing one at
      it (or is the end of the list), the load reports exactly its
      non-protected candidates before `b`, in search order. No candidate at
      or after the first existing one is reported. */
  lemma DylibItemsOfBoundary(name: string, exePath: string, exeDir: string, rpaths: seq<string>,
                             exist: string -> bool, b: nat)
    requires HasPrefix(name, RPathPre)
    requires b <= |JoinPath(name, exePath, rpaths)|
    requires forall i :: 0 <= i < b ==> !exist(JoinPath(name, exePath, rpaths)[i])
    requires b < |JoinPath(name, exePath, rpaths)| ==> exist(JoinPath(name, exePath, rpaths)[b])
    ensures DylibItemsOf(name, exePath, exeDir, rpaths, exist)
      == NonSipItems(RPath, JoinPath(name, exePath, rpaths)[..b])
  {
    RPathBoundaryRule(JoinPath(name, exePath, rpaths), exist, b);
  }

  /** A load that does not start with `@rpath` yields exactly one proxy
      finding, its resolved path, unless that path is protected; existence
      is never consulted for it. */
  lemma ProxyRule(name: string, exePath: string, exeDir: string, rpaths: seq<string>,
                  exist: string -> bool, exist': string -> bool)
    requires !HasPrefix(name, RPathPre)
    ensures |DylibItemsOf(name, exePath, exeDir, rpaths, exist)|
              == if InSIPPath(ParseProxyPath(name, exeDir)) then 0 else 1
    ensures forall it :: it in DylibItemsOf(name, exePath, exeDir, rpaths, exist) ==>
              it == VulnItem(Proxy, ParseProxyPath(name, exeDir))
    ensures DylibItemsOf(name, exePath, exeDir, rpaths, exist)
              == DylibItemsOf(name, exePath, exeDir, rpaths, exist')
  {
  }

  /** The findings of all ordinary loads, in load order. */
  function DylibItems(loads: seq<Dylib>, exePath: string, exeDir: string, rpaths: seq<string>,
                      exist: string -> bool): (r: seq<VulnItem>)
    ensures forall it :: it in r ==> !InSIPPath(it.path)
    ensures forall it :: it in r && it.vulnType != Proxy ==> it.vulnType == RPath && !exist(it.path)
    ensures forall i, it :: 0 <= i < |loads| && it in DylibItemsOf(loads[i].name, exePath, exeDir, rpaths, exist)
              ==> it in r
    ensures forall it :: it in r ==>
              exists i :: 0 <= i < |loads| && it in DylibItemsOf(loads[i].name, exePath, exeDir, rpaths, exist)
    decreases |loads|
  {
    if |loads| == 0 then []
    else
      var head := DylibItemsOf(loads[0].name, exePath, exeDir, rpaths, exist);
      var rest := DylibItems(loads[1..], exePath, exeDir, rpaths, exist);
      assert forall i :: 1 <= i < |loads| ==> loads[1..][i - 1] == loads[i];
      head + rest
  }

  /** A single ordinary load contributes exactly its own findings, in the
      order `DylibItemsOf` gives them; with `DylibItemsAppend` this pins the
      whole list. */
  lemma DylibItemsSingle(l: Dylib, exePath: string, exeDir: string, rpaths: seq<string>, exist: string -> bool)
    ensures DylibItems([l], exePath, exeDir, rpaths, exist) == DylibItemsOf(l.name, exePath, exeDir, rpaths, exist)
  {
    assert [l][1..] == [];
  }

  /** Ordinary-load findings are produced in load order: the findings of a
      concatenation are the concatenation of the findings. */
  lemma {:induction false} DylibItemsAppend(a: seq<Dylib>, b: seq<Dylib>, exePath: string, exeDir: string,
                                            rpaths: seq<string>, exist: string -> bool)
    ensures DylibItems(a + b, exePath, exeDir, rpaths, exist)
      == DylibItems(a, exePath, exeDir, rpaths, exist) + DylibItems(b, exePath, exeDir, rpaths, exist)
    decreases |a|
  {
    if |a| > 0 {
      assert (a + b)[0] == a[0];
      assert (a + b)[1..] == a[1..] + b;
      DylibItemsAppend(a[1..], b, exePath, exeDir, rpaths, exist);
    } else {
      assert a + b == b;
    }
  }

  // ------------------------------------------------------------------- slices

  /** The findings of one injectable slice: its search paths are resolved
      against `exeDir` first, then the weak findings come before the
      findings of the ordinary loads. */
  function SliceItems(m: MachOInfo, exePath: string, exeDir: string, exist: string -> bool): (r: seq<VulnItem>)
    ensures forall it :: it in r ==> !InSIPPath(it.path)
    ensures forall it :: it in r && it.vulnType != Proxy ==> !exist(it.path)
    ensures forall i, j :: 0 <= i < j < |r| && r[j].vulnType == Weak ==> r[i].vulnType == Weak
    ensures r == WeakItems(WeakCandidates(m.weakDylibLoads, exePath, ParseRPaths(m.lcRpaths, exeDir)), exist)
                 + DylibItems(m.dylibLoads, exePath, exeDir, ParseRPaths(m.lcRpaths, exeDir), exist)
  {
    var rpaths := ParseRPaths(m.lcRpaths, exeDir);
    var weak := WeakItems(WeakCandidates(m.weakDylibLoads, exePath, rpaths), exist);
    var ordinary := DylibItems(m.dylibLoads, exePath, exeDir, rpaths, exist);
    assert forall i :: 0 <= i < |weak| ==> weak[i] in weak;
    assert forall i :: 0 <= i < |ordinary| ==> ordinary[i] in ordinary;
    weak + ordinary
  }

  /** What a slice reports, in both directions: a weak finding for each of
      its weak candidates that is neither protected nor existing, and the
      findings of each of its ordinary loads, all against the search paths
      resolved for the slice. */
  lemma SliceItemsMembers(m: MachOInfo, exePath: string, exeDir: string, exist: string -> bool, it: VulnItem)
    ensures
      var rpaths := ParseRPaths(m.lcRpaths, exeDir);
      it in SliceItems(m, exePath, exeDir, exist) <==>
        (it.vulnType == Weak && it.path in WeakCandidates(m.weakDylibLoads, exePath, rpaths)
           && !InSIPPath(it.path) && !exist(it.path))
        || (exists i :: 0 <= i < |m.dylibLoads|
              && it in DylibItemsOf(m.dylibLoads[i].name, exePath, exeDir, rpaths, exist))
  {
    var rpaths := ParseRPaths(m.lcRpaths, exeDir);
    if it.vulnType == Weak {
      assert it == VulnItem(Weak, it.path);
    }
  }

  /** Some slice passes the library-validation check. */
  function AnyInjectable(ms: seq<MachOInfo>): (r: bool)
    ensures r <==> exists i :: 0 <= i < |ms| && Injectable(ms[i])
    decreases |ms|
  {
    if |ms| == 0 then false
    else
      var rest := AnyInjectable(ms[1..]);
      assert forall i :: 1 <= i < |ms| ==> ms[1..][i - 1] == ms[i];
      Injectable(ms[0]) || rest
  }

  /** The findings of all slices, accumulated in slice order; a slice that
      fails the check contributes nothing. */
  function Findings(ms: seq<MachOInfo>, exePath: string, exeDir: string, exist: string -> bool): (r: seq<VulnItem>)
    ensures (forall i :: 0 <= i < |ms| ==> !Injectable(ms[i])) ==> r == []
    ensures forall it :: it in r ==> !InSIPPath(it.path)
    ensures forall it :: it in r && it.vulnType != Proxy ==> !exist(it.path)
    decreases |ms|
  {
    if |ms| == 0 then []
    else
      var head := if Injectable(ms[0]) then SliceItems(ms[0], exePath, exeDir, exist) else [];
      var rest := Findings(ms[1..], exePath, exeDir, exist);
      assert forall i :: 1 <= i < |ms| ==> ms[1..][i - 1] == ms[i];
      head + rest
  }

  /** Findings accumulate across slices: appending a slice appends its
      findings when it is injectable and nothing otherwise. */
  lemma {:induction false} FindingsAppend(ms: seq<MachOInfo>, m: MachOInfo, exePath: string, exeDir: string,
                                          exist: string -> bool)
    ensures Findings(ms + [m], exePath, exeDir, exist)
      == Findings(ms, exePath, exeDir, exist) + (if Injectable(m) then SliceItems(m, exePath, exeDir, exist) else [])
    decreases |ms|
  {
    if |ms| == 0 {
      assert Findings([m], exePath, exeDir, exist)
        == (if Injectable(m) then SliceItems(m, exePath, exeDir, exist) else []) + Findings([], exePath, exeDir, exist);
    } else {
      assert (ms + [m])[0] == ms[0];
      assert (ms + [m])[1..] == ms[1..] + [m];
      FindingsAppend(ms[1..], m, exePath, exeDir, exist);
    }
  }

  /** Every finding of an injectable slice appears in the accumulated
      findings, and every accumulated finding comes from an injectable
      slice. */
  lemma {:induction false} FindingsBySlice(ms: seq<MachOInfo>, exePath: string, exeDir: string,
                                           exist: string -> bool)
    ensures forall i, it :: 0 <= i < |ms| && Injectable(ms[i]) && it in SliceItems(ms[i], exePath, exeDir, exist)
              ==> it in Findings(ms, exePath, exeDir, exist)
    ensures forall it :: it in Findings(ms, exePath, exeDir, exist) ==>
              exists i :: 0 <= i < |ms| && Injectable(ms[i]) && it in SliceItems(ms[i], exePath, exeDir, exist)
    decreases |ms|
  {
    if |ms| > 0 {
      FindingsBySlice(ms[1..], exePath, exeDir, exist);
      assert forall i :: 1 <= i < |ms| ==> ms[1..][i - 1] == ms[i];
      forall it | it in Findings(ms, exePath, exeDir, exist)
        ensures exists i :: 0 <= i < |ms| && Injectable(ms[i]) && it in SliceItems(ms[i], exePath, exeDir, exist)
      {
        if !(Injectable(ms[0]) && it in SliceItems(ms[0], exePath, exeDir, exist)) {
          assert it in Findings(ms[1..], exePath, exeDir, exist);
          var j :| 0 <= j < |ms[1..]| && Injectable(ms[1..][j])
                   && it in SliceItems(ms[1..][j], exePath, exeDir, exist);
          assert ms[1..][j] == ms[j + 1];
        }
      }
    }
  }

  /** `ScanApp` after the executable has been located and parsed into at
      least one slice: flag word and entitlement are reported from slice 0,
      the application is injectable iff some slice is, an application with no
      injectable slice has no findings, no finding lies under a protected
      root, and no weak or rpath finding exists on disk. */
  function ScanApp(appPath: string, exePath: string, exeDir: string, machoInfo: seq<MachOInfo>,
                   exist: string -> bool): (v: AppVulnerable)
    requires |machoInfo| > 0
    ensures v.appPath == appPath && v.executablePath == exePath
    ensures v.codeSignFlags == machoInfo[0].codeSignFlags
    ensures v.disableLibraryValidation == machoInfo[0].disableLibraryValidation
    ensures v.injectable <==> exists i :: 0 <= i < |machoInfo| && Injectable(machoInfo[i])
    ensures !v.injectable ==> v.dylibs == []
    ensures forall it :: it in v.dylibs ==> !InSIPPath(it.path)
    ensures forall it :: it in v.dylibs && it.vulnType != Proxy ==> !exist(it.path)
    ensures v.dylibs == Findings(machoInfo, exePath, exeDir, exist)
  {
    AppVulnerable(
      appPath, exePath,
      machoInfo[0].codeSignFlags, machoInfo[0].disableLibraryValidation,
      AnyInjectable(machoInfo),
      Findings(machoInfo, exePath, exeDir, exist))
  }

  /** The application reports every finding of each of its injectable
      slices, and nothing else. */
  lemma ScanAppBySlice(appPath: string, exePath: string, exeDir: string, machoInfo: seq<MachOInfo>,
                       exist: string -> bool)
    requires |machoInfo| > 0
    ensures forall i, it :: 0 <= i < |machoInfo| && Injectable(machoInfo[i])
              && it in SliceItems(machoInfo[i], exePath, exeDir, exist)
              ==> it in ScanApp(appPath, exePath, exeDir, machoInfo, exist).dylibs
    ensures forall it :: it in ScanApp(appPath, exePath, exeDir, machoInfo, exist).dylibs ==>
              exists i :: 0 <= i < |machoInfo| && Injectable(machoInfo[i])
                && it in SliceItems(machoInfo[i], exePath, exeDir, exist)
  {
    FindingsBySlice(machoInfo, exePath, exeDir, exist);
  }

  /** A candidate of weak load `w` of an injectable slice that is neither
      protected nor existing is reported as a weak finding. */
  lemma ScanAppReportsWeak(appPath: string, exePath: string, exeDir: string, machoInfo: seq<MachOInfo>,
                           exist: string -> bool, i: nat, w: nat, c: string)
    requires i < |machoInfo| && Injectable(machoInfo[i]) && w < |machoInfo[i].weakDylibLoads|
    requires c in WeakCandidatesOf(machoInfo[i].weakDylibLoads[w].name, exePath,
                                   ParseRPaths(machoInfo[i].lcRpaths, exeDir))
    requires !InSIPPath(c) && !exist(c)
    ensures VulnItem(Weak, c) in ScanApp(appPath, exePath, exeDir, machoInfo, exist).dylibs
  {
    SliceItemsMembers(machoInfo[i], exePath, exeDir, exist, VulnItem(Weak, c));
    ScanAppBySlice(appPath, exePath, exeDir, machoInfo, exist);
  }

  /** An ordinary load of an injectable slice that does not start with
      `@rpath` is reported as a proxy finding at its resolved path, unless
      that path is protected. */
  lemma ScanAppReportsProxy(appPath: string, exePath: string, exeDir: string, machoInfo: seq<MachOInfo>,
                            exist: string -> bool, i: nat, l: nat)
    requires i < |machoInfo| && Injectable(machoInfo[i]) && l < |machoInfo[i].dylibLoads|
    requires !HasPrefix(machoInfo[i].dylibLoads[l].name, RPathPre)
    requires !InSIPPath(ParseProxyPath(machoInfo[i].dylibLoads[l].name, exeDir))
    ensures VulnItem(Proxy, ParseProxyPath(machoInfo[i].dylibLoads[l].name, exeDir))
              in ScanApp(appPath, exePath, exeDir, machoInfo, exist).dylibs
  {
    var m := machoInfo[i];
    var it := VulnItem(Proxy, ParseProxyPath(m.dylibLoads[l].name, exeDir));
    var own := DylibItemsOf(m.dylibLoads[l].name, exePath, exeDir, ParseRPaths(m.lcRpaths, exeDir), exist);
    assert own != [] && own[0] in own;
    SliceItemsMembers(m, exePath, exeDir, exist, it);
    ScanAppBySlice(appPath, exePath, exeDir, machoInfo, exist);
  }

  /** Candidate `k` of an `@rpath` load of an injectable slice is reported
      as an rpath finding when it is not protected and neither it nor any
      candidate searched before it exists. */
  lemma ScanAppReportsRPath(appPath: string, exePath: string, exeDir: string, machoInfo: seq<MachOInfo>,
                            exist: string -> bool, i: nat, l: nat, k: nat)
    requires i < |machoInfo| && Injectable(machoInfo[i]) && l < |machoInfo[i].dylibLoads|
    requires HasPrefix(machoInfo[i].dylibLoads[l].name, RPathPre)
    requires
      var cands := JoinPath(machoInfo[i].dylibLoads[l].name, exePath, ParseRPaths(machoInfo[i].lcRpaths, exeDir));
      k < |cands| && !InSIPPath(cands[k]) && forall j :: 0 <= j <= k ==> !exist(cands[j])
    ensures
      var cands := JoinPath(machoInfo[i].dylibLoads[l].name, exePath, ParseRPaths(machoInfo[i].lcRpaths, exeDir));
      VulnItem(RPath, cands[k]) in ScanApp(appPath, exePath, exeDir, machoInfo, exist).dylibs
  {
    var m := machoInfo[i];
    var cands := JoinPath(m.dylibLoads[l].name, exePath, ParseRPaths(m.lcRpaths, exeDir));
    SliceItemsMembers(m, exePath, exeDir, exist, VulnItem(RPath, cands[k]));
    ScanAppBySlice(appPath, exePath, exeDir, machoInfo, exist);
  }
}

=== FILE: codesign.dfy ===
/** Code-signing policy: the two flag bits of the code-directory flag word
    that decide whether a slice enforces library validation, and the
    resulting injectability of one architecture slice. */
module CodeSign {

  /** The 32-bit code-signature flag word (`uint32` in dylibx.go). */
  type Flags = bv32

  /** `CS_REQUIRE_LV`: the binary only loads libraries signed by its team. */
  const REQUIRE_LV: Flags := 0x2000
  /** `CS_RUNTIME`: the binary opted into the hardened runtime. */
  const RUNTIME: Flags := 0x10000

  /** The hardened-runtime bit is set: bit 16 of the flag word is one, and
      so setting that bit leaves the word unchanged. */
  function IsRuntime(f: Flags): (r: bool)
    ensures r <==> (f >> 16) & 1 == 1
    ensures r <==> f | RUNTIME == f
  {
    f & RUNTIME != 0
  }

  /** The library-validation bit is set: bit 13 of the flag word is one, and
      so setting that bit leaves the word unchanged. */
  function IsLibraryValidation(f: Flags): (r: bool)
    ensures r <==> (f >> 13) & 1 == 1
    ensures r <==> f | REQUIRE_LV == f
  {
    f & REQUIRE_LV != 0
  }

  /** A slice can be injected unless it is hardened or requires library
      validation and has not disabled library validation by entitlement.
      Disabling library validation makes any flag word injectable; otherwise
      the slice is injectable exactly when neither policy bit is set. */
  function SliceInjectable(f: Flags, disableLibraryValidation: bool): (r: bool)
    ensures disableLibraryValidation ==> r
    ensures !disableLibraryValidation ==> (r <==> f & (RUNTIME | REQUIRE_LV) == 0)
  {
    !((IsRuntime(f) || IsLibraryValidation(f)) && !disableLibraryValidation)
  }

  /** The two policy bits are distinct single bits. */
  lemma PolicyBits()
    ensures RUNTIME == 1 << 16 && REQUIRE_LV == 1 << 13
    ensures RUNTIME & REQUIRE_LV == 0
  {
  }

  /** Setting more flag bits never makes a slice injectable that was not:
      injectability is antitone in the flag word. */
  lemma InjectableAntitone(f: Flags, g: Flags, disableLibraryValidation: bool)
    requires f & g == f
    ensures SliceInjectable(g, disableLibraryValidation) ==> SliceInjectable(f, disableLibraryValidation)
  {
  }
}

=== FILE: loadpath.dfy ===
/** The load-path token resolver: expansion of the dynamic linker's symbolic
    tokens `@rpath`, `@executable_path` and `@loader_path` into concrete
    candidate paths. Every substitution uses `ReplaceAll`, so a token is
    replaced wherever it occurs in the string, not only at its head. */
module LoadPath {
  import opened GoStrings

  const RPathPre: string := "@rpath"
  const ExecutablePathPre: string := "@executable_path"
  const LoaderPathPre: string := "@loader_path"

  /** The three tokens differ in their second character, so a string starts
      with at most one of them. */
  lemma TokensExclusive(p: string)
    ensures HasPrefix(p, RPathPre) ==> !HasPrefix(p, ExecutablePathPre) && !HasPrefix(p, LoaderPathPre)
    ensures HasPrefix(p, ExecutablePathPre) ==> !HasPrefix(p, LoaderPathPre)
  {
    if HasPrefix(p, RPathPre) {
      assert p[1] == p[..6][1] == 'r';
    }
    if HasPrefix(p, ExecutablePathPre) {
      assert p[1] == p[..16][1] == 'e';
    }
    if HasPrefix(p, LoaderPathPre) {
      assert p[1] == p[..12][1] == 'l';
    }
  }

  /** A string whose first character is not `@` starts with no token. */
  lemma NoTokenWithoutAt(p: string)
    requires |p| > 0 && p[0] != '@'
    ensures !HasPrefix(p, RPathPre) && !HasPrefix(p, ExecutablePathPre) && !HasPrefix(p, LoaderPathPre)
  {
    if |p| >= 6 {
      assert p[..6][0] == p[0];
    }
    if |p| >= 12 {
      assert p[..12][0] == p[0];
    }
    if |p| >= 16 {
      assert p[..16][0] == p[0];
    }
  }

  /** `ParseProxyPath`: a leading `@executable_path` or `@loader_path` is
      resolved against the executable's directory `exeDir` (every further
      occurrence of the same token too); any other path is returned as is. */
  function ParseProxyPath(path: string, exeDir: string): (r: string)
    ensures !HasPrefix(path, ExecutablePathPre) && !HasPrefix(path, LoaderPathPre) ==> r == path
    ensures HasPrefix(path, ExecutablePathPre) ==>
      r == exeDir + ReplaceAll(path[|ExecutablePathPre|..], ExecutablePathPre, exeDir)
    ensures HasPrefix(path, LoaderPathPre) ==>
      r == exeDir + ReplaceAll(path[|LoaderPathPre|..], LoaderPathPre, exeDir)
  {
    TokensExclusive(path);
    if HasPrefix(path, ExecutablePathPre) then
      ReplaceAllLeading(path, ExecutablePathPre, exeDir);
      ReplaceAll(path, ExecutablePathPre, exeDir)
    else if HasPrefix(path, LoaderPathPre) then
      ReplaceAllLeading(path, LoaderPathPre, exeDir);
      ReplaceAll(path, LoaderPathPre, exeDir)
    else path
  }

  /** A proxy path that started with a directory token starts, once
      resolved, with the executable's directory. */
  lemma ProxyPathAnchored(path: string, exeDir: string)
    requires HasPrefix(path, ExecutablePathPre) || HasPrefix(path, LoaderPathPre)
    ensures HasPrefix(ParseProxyPath(path, exeDir), exeDir)
  {
    var r := ParseProxyPath(path, exeDir);
    assert r[..|exeDir|] == exeDir;
  }

  /** `ParseRPaths`: each `LC_RPATH` entry, in order, with a leading
      `@executable_path` or `@loader_path` resolved against `exeDir`. dylibx.go's
      `ParseRPaths` overwrites the slice's list in place; here the resolved list is
      returned. */
  function ParseRPaths(rpath: seq<string>, exeDir: string): (r: seq<string>)
    ensures |r| == |rpath|
    ensures forall i :: 0 <= i < |rpath| ==>
      (!HasPrefix(rpath[i], ExecutablePathPre) && !HasPrefix(rpath[i], LoaderPathPre) ==> r[i] == rpath[i])
    ensures forall i :: 0 <= i < |rpath| ==>
      (HasPrefix(rpath[i], ExecutablePathPre) || HasPrefix(rpath[i], LoaderPathPre) ==> HasPrefix(r[i], exeDir))
    decreases |rpath|
  {
    if |rpath| == 0 then []
    else
      var e := rpath[0];
      var head :=
        if HasPrefix(e, ExecutablePathPre) then ReplaceAll(e, ExecutablePathPre, exeDir)
        else if HasPrefix(e, LoaderPathPre) then ReplaceAll(e, LoaderPathPre, exeDir)
        else e;
      ProxyPathAnchoredHead(e, exeDir);
      [head] + ParseRPaths(rpath[1..], exeDir)
  }

  /** The head step of `ParseRPaths`, stated on its own. */
  lemma ProxyPathAnchoredHead(e: string, exeDir: string)
    ensures HasPrefix(e, ExecutablePathPre) ==> HasPrefix(ReplaceAll(e, ExecutablePathPre, exeDir), exeDir)
    ensures HasPrefix(e, LoaderPathPre) ==> HasPrefix(ReplaceAll(e, LoaderPathPre, exeDir), exeDir)
  {
    if HasPrefix(e, ExecutablePathPre) {
      ReplaceAllLeading(e, ExecutablePathPre, exeDir);
    }
    if HasPrefix(e, LoaderPathPre) {
      ReplaceAllLeading(e, LoaderPathPre, exeDir);
    }
  }

  /** Search paths and proxy loads resolve the two directory tokens in the
      same way: each resolved search path is the proxy resolution of its
      entry. */
  lemma {:induction false} ParseRPathsAgreesWithProxy(rpath: seq<string>, exeDir: string)
    ensures forall i :: 0 <= i < |rpath| ==> ParseRPaths(rpath, exeDir)[i] == ParseProxyPath(rpath[i], exeDir)
    decreases |rpath|
  {
    if |rpath| > 0 {
      ParseRPathsAgreesWithProxy(rpath[1..], exeDir);
      var r := ParseRPaths(rpath, exeDir);
      assert r[1..] == ParseRPaths(rpath[1..], exeDir);
      forall i | 1 <= i < |rpath|
        ensures r[i] == ParseProxyPath(rpath[i], exeDir)
      {
        assert r[i] == r[1..][i - 1];
        assert rpath[i] == rpath[1..][i - 1];
      }
    }
  }

  /** Without any leading directory token the search paths are unchanged,
      so resolving them twice is the same as resolving them once. */
  lemma ParseRPathsTokenFree(rpath: seq<string>, exeDir: string)
    requires forall i :: 0 <= i < |rpath| ==>
      !HasPrefix(rpath[i], ExecutablePathPre) && !HasPrefix(rpath[i], LoaderPathPre)
    ensures ParseRPaths(rpath, exeDir) == rpath
    ensures ParseRPaths(ParseRPaths(rpath, exeDir), exeDir) == ParseRPaths(rpath, exeDir)
  {
  }

  /** When the executable's directory does not itself start with `@` (an
      absolute directory, say), resolution is idempotent on any input: a
      resolved entry starts with the directory and so with no token. */
  lemma ParseRPathsIdempotent(rpath: seq<string>, exeDir: string)
    requires |exeDir| > 0 && exeDir[0] != '@'
    ensures ParseRPaths(ParseRPaths(rpath, exeDir), exeDir) == ParseRPaths(rpath, exeDir)
  {
    var r := ParseRPaths(rpath, exeDir);
    forall i | 0 <= i < |r|
      ensures !HasPrefix(r[i], ExecutablePathPre) && !HasPrefix(r[i], LoaderPathPre)
    {
      if HasPrefix(rpath[i], ExecutablePathPre) || HasPrefix(rpath[i], LoaderPathPre) {
        assert r[i][0] == r[i][..|exeDir|][0] == exeDir[0];
        NoTokenWithoutAt(r[i]);
      }
    }
    ParseRPathsTokenFree(r, exeDir);
  }

  /** `joinPath`: the candidate locations of a load path. An `@rpath` load
      has one candidate per search path, in search order; an
      `@executable_path` load has the single candidate resolved against
      `exec`; any other load path has none. */
  function JoinPath(p: string, exec: string, rpath: seq<string>): (r: seq<string>)
    ensures HasPrefix(p, RPathPre) ==> |r| == |rpath|
    ensures HasPrefix(p, ExecutablePathPre) ==> |r| == 1
    ensures !HasPrefix(p, RPathPre) && !HasPrefix(p, ExecutablePathPre) ==> r == []
  {
    TokensExclusive(p);
    if HasPrefix(p, RPathPre) then
      seq(|rpath|, i requires 0 <= i < |rpath| => ReplaceAll(p, RPathPre, rpath[i]))
    else if HasPrefix(p, ExecutablePathPre) then
      [ReplaceAll(p, ExecutablePathPre, exec)]
    else []
  }

  /** Candidate `i` of an `@rpath` load is search path `i` followed by the
      rest of the load path, with every later `@rpath` also replaced by that
      search path. */
  lemma JoinPathRPath(p: string, exec: string, rpath: seq<string>)
    requires HasPrefix(p, RPathPre)
    ensures forall i :: 0 <= i < |rpath| ==>
      JoinPath(p, exec, rpath)[i] == rpath[i] + ReplaceAll(p[|RPathPre|..], RPathPre, rpath[i])
    ensures forall i :: 0 <= i < |rpath| ==> HasPrefix(JoinPath(p, exec, rpath)[i], rpath[i])
  {
    forall i | 0 <= i < |rpath|
      ensures JoinPath(p, exec, rpath)[i] == rpath[i] + ReplaceAll(p[|RPathPre|..], RPathPre, rpath[i])
      ensures HasPrefix(JoinPath(p, exec, rpath)[i], rpath[i])
    {
      ReplaceAllLeading(p, RPathPre, rpath[i]);
    }
  }

  /** The single candidate of an `@executable_path` load is `exec` followed
      by the rest of the load path. */
  lemma JoinPathExecutable(p: string, exec: string, rpath: seq<string>)
    requires HasPrefix(p, ExecutablePathPre)
    ensures JoinPath(p, exec, rpath) == [exec + ReplaceAll(p[|ExecutablePathPre|..], ExecutablePathPre, exec)]
  {
    TokensExclusive(p);
    ReplaceAllLeading(p, ExecutablePathPre, exec);
  }
}

=== FILE: scenarios.dfy ===
/** Concrete cases of the analysis: a bundled framework found through
    `@rpath`, a hardened executable with and without the library-validation
    entitlement, protected, unprotected and relative proxy loads, and small
    candidate lists that show the rpath boundary and the weak rule. */
module Scenarios {
  import opened GoStrings
  import opened CodeSign
  import opened Sip
  import opened LoadPath
  import opened Dylibx

  /** Search paths `[a, b, c]` where only `b` exists: `a` is reported, the
      existing `b` and everything after it are not. */
  lemma RPathFirstExistingStops(a: string, b: string, c: string, exist: string -> bool)
    requires !exist(a) && exist(b) && !InSIPPath(a)
    ensures RPathItems([a, b, c], exist) == [VulnItem(RPath, a)]
  {
    RPathBoundaryRule([a, b, c], exist, 1);
    assert [a, b, c][..1] == [a];
  }

  /** Weak candidates `[a, b]`: both are reported when neither exists, only
      `b` when `a` exists. */
  lemma WeakBothOrSecond(a: string, b: string, exist: string -> bool)
    requires !InSIPPath(a) && !InSIPPath(b) && !exist(b)
    ensures !exist(a) ==> WeakItems([a, b], exist) == [VulnItem(Weak, a), VulnItem(Weak, b)]
    ensures exist(a) ==> WeakItems([a, b], exist) == [VulnItem(Weak, b)]
  {
    assert [a, b][1..] == [b];
  }

  /** A hardened slice without the entitlement is not injectable and yields
      no finding, whatever its loads; with the entitlement it is injectable. */
  lemma HardenedRuntime(m: MachOInfo, exist: string -> bool)
    requires m.codeSignFlags == 0x10000
    ensures !m.disableLibraryValidation ==>
      var v := ScanApp("/Applications/X.app", "/Applications/X.app/Contents/MacOS/X",
                       "/Applications/X.app/Contents/MacOS", [m], exist);
      !v.injectable && v.dylibs == []
    ensures m.disableLibraryValidation ==>
      ScanApp("/Applications/X.app", "/Applications/X.app/Contents/MacOS/X",
              "/Applications/X.app/Contents/MacOS", [m], exist).injectable
  {
  }

  /** An absolute proxy load under `/usr/` is never reported. */
  lemma ProtectedProxyLoad(exePath: string, exeDir: string, rpaths: seq<string>, exist: string -> bool)
    ensures DylibItemsOf("/usr/lib/libfoo.dylib", exePath, exeDir, rpaths, exist) == []
  {
    var p := "/usr/lib/libfoo.dylib";
    NoTokenWithoutAt(p);
    assert p[..5] == "/usr/";
  }

  /** An absolute proxy load whose first component starts with neither `S`
      nor `u` (such as `/Applications/X.app/Contents/Frameworks/libfoo.dylib`)
      is always reported, unchanged. */
  lemma UnprotectedProxyLoad(p: string, exePath: string, exeDir: string, rpaths: seq<string>,
                             exist: string -> bool)
    requires |p| >= 2 && p[0] == '/' && p[1] != 'S' && p[1] != 'u'
    ensures DylibItemsOf(p, exePath, exeDir, rpaths, exist) == [VulnItem(Proxy, p)]
  {
    NoTokenWithoutAt(p);
    OutsideSip(p);
  }

  /** A relative proxy load that starts with no token (such as
      `libfoo.dylib`) is never protected, so it is always reported, unchanged. */
  lemma RelativeProxyLoad(name: string, exePath: string, exeDir: string, rpaths: seq<string>,
                          exist: string -> bool)
    requires |name| > 0 && name[0] != '/' && name[0] != '@'
    ensures DylibItemsOf(name, exePath, exeDir, rpaths, exist) == [VulnItem(Proxy, name)]
  {
    NoTokenWithoutAt(name);
    SipPathsAbsolute(name);
  }

  /** An unsigned slice with one bundled-framework search path `rp` (such
      as `/Applications/X.app/Contents/Frameworks`) and one load
      `@rpath` + `rest` (such as `/Foo.framework/Foo`) whose framework is
      absent: the application is injectable, with exactly one rpath finding
      at `rp + rest`. */
  lemma BundledFrameworkMissing(appPath: string, exePath: string, exeDir: string, rp: string, rest: string,
                                exist: string -> bool)
    requires |rp| > 0 && rp[0] == '/'
    requires forall k :: 0 <= k < |rest| ==> rest[k] != '@'
    requires !InSIPPath(rp + rest) && !exist(rp + rest)
    ensures
      var m := MachOInfo([rp], [Dylib(RPathPre + rest)], [], 0, false);
      ScanApp(appPath, exePath, exeDir, [m], exist)
        == AppVulnerable(appPath, exePath, 0, false, true, [VulnItem(RPath, rp + rest)])
  {
    var m := MachOInfo([rp], [Dylib(RPathPre + rest)], [], 0, false);
    assert ParseRPaths([rp], exeDir) == [rp] by {
      NoTokenWithoutAt(rp);
    }
    assert DylibItemsOf(RPathPre + rest, exePath, exeDir, [rp], exist) == [VulnItem(RPath, rp + rest)] by {
      SingleSearchPath(rest, exePath, rp);
      SingleAbsentCandidate(rp + rest, exist);
      assert (RPathPre + rest)[..|RPathPre|] == RPathPre;
    }
    assert m.dylibLoads[1..] == [];
    assert DylibItems(m.dylibLoads, exePath, exeDir, [rp], exist) == [VulnItem(RPath, rp + rest)];
    assert WeakItems(WeakCandidates(m.weakDylibLoads, exePath, [rp]), exist) == [];
    assert SliceItems(m, exePath, exeDir, exist) == [VulnItem(RPath, rp + rest)];
    assert [m][1..] == [];
  }

  /** With one search path, an `@rpath` load whose remainder holds no `@`
      has the single candidate search path + remainder. */
  lemma SingleSearchPath(rest: string, exe: string, rp: string)
    requires forall k :: 0 <= k < |rest| ==> rest[k] != '@'
    ensures JoinPath(RPathPre + rest, exe, [rp]) == [rp + rest]
  {
    var load := RPathPre + rest;
    assert load[..|RPathPre|] == RPathPre;
    assert load[|RPathPre|..] == rest;
    ReplaceAllNoFirstChar(rest, RPathPre, rp);
    JoinPathRPath(load, exe, [rp]);
    var j := JoinPath(load, exe, [rp]);
    assert j == [j[0]];
  }

  /** A lone candidate that is neither protected nor existing is reported. */
  lemma SingleAbsentCandidate(c: string, exist: string -> bool)
    requires !exist(c) && !InSIPPath(c)
    ensures RPathItems([c], exist) == [VulnItem(RPath, c)]
  {
    RPathBoundaryRule([c], exist, 1);
    assert [c][..1] == [c];
  }
}

=== FILE: sip.dfy ===
/** The protected-path classifier: paths under the directories that System
    Integrity Protection keeps read-only are not viable hijack targets. The
    check is a prefix match, not a permission query. */
module Sip {
  import opened GoStrings

  /** `sippaths`: the protected roots, each with its trailing slash. */
  const SipPaths: seq<string> := ["/System/", "/usr/"]

  /** Some prefix of the list, tried in order, is a prefix of `p`. */
  function AnyPrefix(p: string, prefixes: seq<string>): (r: bool)
    ensures r <==> exists i :: 0 <= i < |prefixes| && HasPrefix(p, prefixes[i])
    decreases |prefixes|
  {
    if |prefixes| == 0 then false
    else if HasPrefix(p, prefixes[0]) then true
    else
      var rest := AnyPrefix(p, prefixes[1..]);
      assert forall i :: 1 <= i < |prefixes| ==> prefixes[1..][i - 1] == prefixes[i];
      rest
  }

  /** `InSIPPath`: `p` lies under `/System/` or `/usr/`. */
  function InSIPPath(p: string): (r: bool)
    ensures r <==> HasPrefix(p, "/System/") || HasPrefix(p, "/usr/")
  {
    AnyPrefix(p, SipPaths)
  }

  /** Every protected path is absolute, and a path that does not start with
      `/` is never protected. */
  lemma SipPathsAbsolute(p: string)
    ensures InSIPPath(p) ==> HasPrefix(p, "/")
  {
    if HasPrefix(p, "/System/") {
      assert p[..1] == p[..8][..1];
    } else if HasPrefix(p, "/usr/") {
      assert p[..1] == p[..5][..1];
    }
  }

  /** An absolute path whose first component starts with neither `S` nor
      `u` is not protected. */
  lemma OutsideSip(p: string)
    requires |p| >= 2 && p[0] == '/' && p[1] != 'S' && p[1] != 'u'
    ensures !InSIPPath(p)
  {
    if |p| >= 5 {
      assert p[..5][1] == p[1];
    }
    if |p| >= 8 {
      assert p[..8][1] == p[1];
    }
  }
}

=== FILE: strings.dfy ===
/** String helpers with the semantics of Go's `strings` package, restricted to
    the three the vulnerability analysis uses: `HasPrefix`, `Index` and
    `ReplaceAll`. Strings are sequences of characters; no encoding is modelled. */
module GoStrings {

  /** `strings.HasPrefix`: `s` begins with `prefix`, character by
      character. */
  predicate HasPrefix(s: string, prefix: string)
    ensures HasPrefix(s, prefix) <==> |prefix| <= |s| && forall k :: 0 <= k < |prefix| ==> s[k] == prefix[k]
  {
    |prefix| <= |s| && s[..|prefix|] == prefix
  }

  /** `sub` occurs in `s` starting at position `i`. */
  predicate OccursAt(s: string, sub: string, i: nat) {
    i + |sub| <= |s| && s[i..i + |sub|] == sub
  }

  /** An occurrence at position 0 is exactly a prefix. */
  lemma OccursAtZero(s: string, sub: string)
    ensures OccursAt(s, sub, 0) <==> HasPrefix(s, sub)
  {
    if |sub| <= |s| {
      assert s[0..|sub|] == s[..|sub|];
    }
  }

  /** Dropping the first character shifts every occurrence one place left. */
  lemma OccursAtTail(s: string, sub: string)
    requires |s| > 0
    ensures forall j: nat :: j >= 1 ==> (OccursAt(s, sub, j) <==> OccursAt(s[1..], sub, j - 1))
  {
    forall j: nat | j >= 1
      ensures OccursAt(s, sub, j) <==> OccursAt(s[1..], sub, j - 1)
    {
      if j + |sub| <= |s| {
        var a, b := s[j..j + |sub|], s[1..][j - 1..j - 1 + |sub|];
        assert forall k :: 0 <= k < |sub| ==> a[k] == b[k];
        assert a == b;
      }
    }
  }

  /** `strings.Index`: the position of the leftmost occurrence of `sub` in `s`,
      or -1 when there is none (see `IndexLeftmost`). */
  function Index(s: string, sub: string): (r: int)
    ensures -1 <= r
    ensures r >= 0 ==> r + |sub| <= |s|
    decreases |s|
  {
    if |sub| > |s| then -1
    else if s[..|sub|] == sub then 0
    else
      var k := Index(s[1..], sub);
      if k < 0 then -1 else k + 1
  }

  /** `Index` finds an occurrence, no occurrence lies before it, and -1 means
      `sub` does not occur at all. */
  lemma {:induction false} IndexLeftmost(s: string, sub: string)
    ensures Index(s, sub) >= 0 ==> OccursAt(s, sub, Index(s, sub))
    ensures Index(s, sub) >= 0 ==> forall j: nat :: j < Index(s, sub) ==> !OccursAt(s, sub, j)
    ensures Index(s, sub) < 0 ==> forall j: nat :: !OccursAt(s, sub, j)
    decreases |s|
  {
    OccursAtZero(s, sub);
    if |sub| <= |s| && s[..|sub|] != sub {
      IndexLeftmost(s[1..], sub);
      OccursAtTail(s, sub);
    }
  }

  /** A non-negative `Index` is an occurrence. */
  lemma IndexFound(s: string, sub: string)
    requires Index(s, sub) >= 0
    ensures OccursAt(s, sub, Index(s, sub))
  {
    IndexLeftmost(s, sub);
  }

  /** `strings.ReplaceAll` for a non-empty `find`: every non-overlapping
      occurrence of `find`, scanning left to right, is replaced by `repl`.
      Written after Go's own loop: find the leftmost occurrence, copy what
      precedes it, emit `repl`, continue after the occurrence. */
  function ReplaceAll(s: string, find: string, repl: string): (r: string)
    requires |find| > 0
    ensures (forall j: nat :: !OccursAt(s, find, j)) ==> r == s
    decreases |s|
  {
    var i := Index(s, find);
    if i < 0 then s
    else
      IndexFound(s, find);
      s[..i] + repl + ReplaceAll(s[i + |find|..], find, repl)
  }

  /** A character-by-character reading of the same replacement: at each
      position either `find` starts there, or one character is copied. */
  function ReplaceAllScan(s: string, find: string, repl: string): string
    requires |find| > 0
    decreases |s|
  {
    if |s| == 0 then []
    else if HasPrefix(s, find) then repl + ReplaceAllScan(s[|find|..], find, repl)
    else [s[0]] + ReplaceAllScan(s[1..], find, repl)
  }

  /** The scan leaves a string without occurrences unchanged. */
  lemma {:induction false} ScanWithoutOccurrence(s: string, find: string, repl: string)
    requires |find| > 0
    requires forall j: nat :: !OccursAt(s, find, j)
    ensures ReplaceAllScan(s, find, repl) == s
    decreases |s|
  {
    if |s| > 0 {
      OccursAtZero(s, find);
      OccursAtTail(s, find);
      assert forall j: nat :: !OccursAt(s[1..], find, j) by {
        forall j: nat ensures !OccursAt(s[1..], find, j) {
          assert !OccursAt(s, find, j + 1);
        }
      }
      ScanWithoutOccurrence(s[1..], find, repl);
      assert [s[0]] + s[1..] == s;
    }
  }

  /** The leftmost-occurrence loop and the character scan compute the same
      string: replacement is decided position by position, left to right. */
  lemma {:induction false} ReplaceAllIsScan(s: string, find: string, repl: string)
    requires |find| > 0
    ensures ReplaceAll(s, find, repl) == ReplaceAllScan(s, find, repl)
    decreases |s|
  {
    var i := Index(s, find);
    if i < 0 {
      NoOccurrenceIsScan(s, find, repl);
    } else {
      ReplaceAllIsScan(s[i + |find|..], find, repl);
      OccurrenceIsScan(s, find, repl);
    }
  }

  /** Without an occurrence, the loop and the scan both copy the string. */
  lemma NoOccurrenceIsScan(s: string, find: string, repl: string)
    requires |find| > 0 && Index(s, find) < 0
    ensures ReplaceAll(s, find, repl) == ReplaceAllScan(s, find, repl)
  {
    IndexLeftmost(s, find);
    ScanWithoutOccurrence(s, find, repl);
  }

  /** At the leftmost occurrence, the loop and the scan agree once they
      agree on the text after it. */
  lemma OccurrenceIsScan(s: string, find: string, repl: string)
    requires |find| > 0 && Index(s, find) >= 0
    requires ReplaceAll(s[Index(s, find) + |find|..], find, repl)
      == ReplaceAllScan(s[Index(s, find) + |find|..], find, repl)
    ensures ReplaceAll(s, find, repl) == ReplaceAllScan(s, find, repl)
  {
    var i := Index(s, find);
    assert ReplaceAllScan(s, find, repl)
      == s[..i] + repl + ReplaceAllScan(s[i + |find|..], find, repl) by {
      IndexLeftmost(s, find);
      ScanFound(s, find, repl, i);
    }
    ReplaceAllStep(s, find, repl);
  }

  /** One round of Go's loop: the text before the leftmost occurrence, then
      `repl`, then the text after the occurrence, replaced on its own. */
  lemma ReplaceAllStep(s: string, find: string, repl: string)
    requires |find| > 0 && Index(s, find) >= 0
    ensures ReplaceAll(s, find, repl)
      == s[..Index(s, find)] + repl + ReplaceAll(s[Index(s, find) + |find|..], find, repl)
  {
  }

  /** The scan over a string whose first occurrence of `find` is at `i`:
      the text before it, then `repl`, then the scan of the rest. */
  lemma ScanFound(s: string, find: string, repl: string, i: nat)
    requires |find| > 0 && OccursAt(s, find, i)
    requires forall j: nat :: j < i ==> !OccursAt(s, find, j)
    ensures ReplaceAllScan(s, find, repl) == s[..i] + repl + ReplaceAllScan(s[i + |find|..], find, repl)
  {
    var u := s[i..];
    var rest := ReplaceAllScan(s[i + |find|..], find, repl);
    ScanCopiesPrefix(s, find, repl, i);
    assert ReplaceAllScan(u, find, repl) == repl + rest by {
      assert HasPrefix(u, find) by {
        assert u[..|find|] == s[i..i + |find|];
      }
      assert u[|find|..] == s[i + |find|..];
    }
    AppendAssoc(s[..i], repl, rest);
  }

  /** Concatenation is associative. */
  lemma AppendAssoc(a: string, b: string, c: string)
    ensures a + (b + c) == a + b + c
  {
  }

  /** The scan copies a stretch that holds no occurrence of `find`. */
  lemma {:induction false} ScanCopiesPrefix(s: string, find: string, repl: string, i: nat)
    requires |find| > 0 && i <= |s|
    requires forall j: nat :: j < i ==> !OccursAt(s, find, j)
    ensures ReplaceAllScan(s, find, repl) == s[..i] + ReplaceAllScan(s[i..], find, repl)
    decreases i
  {
    if i == 0 {
      assert s[..0] + s[0..] == s;
    } else {
      var t := s[1..];
      assert ReplaceAllScan(s, find, repl) == [s[0]] + ReplaceAllScan(t, find, repl) by {
        OccursAtZero(s, find);
        assert !OccursAt(s, find, 0);
      }
      assert forall j: nat :: j < i - 1 ==> !OccursAt(t, find, j) by {
        OccursAtTail(s, find);
        forall j: nat | j < i - 1 ensures !OccursAt(t, find, j) {
          assert !OccursAt(s, find, j + 1);
        }
      }
      ScanCopiesPrefix(t, find, repl, i - 1);
      assert t[i - 1..] == s[i..];
      assert [s[0]] + t[..i - 1] == s[..i];
      AppendAssoc([s[0]], t[..i - 1], ReplaceAllScan(s[i..], find, repl));
    }
  }

  /** A leading `find` becomes a leading `repl`; the rest is processed on. */
  lemma ReplaceAllLeading(s: string, find: string, repl: string)
    requires |find| > 0
    requires HasPrefix(s, find)
    ensures ReplaceAll(s, find, repl) == repl + ReplaceAll(s[|find|..], find, repl)
    ensures HasPrefix(ReplaceAll(s, find, repl), repl)
  {
    OccursAtZero(s, find);
    var r := ReplaceAll(s, find, repl);
    assert r[..|repl|] == repl;
  }

  /** A string that never contains the first character of `find` contains no
      occurrence of it, so `ReplaceAll` returns it unchanged. */
  lemma ReplaceAllNoFirstChar(s: string, find: string, repl: string)
    requires |find| > 0
    requires forall k :: 0 <= k < |s| ==> s[k] != find[0]
    ensures ReplaceAll(s, find, repl) == s
  {
    forall j: nat ensures !OccursAt(s, find, j) {
      if j + |find| <= |s| {
        assert s[j..j + |find|][0] == s[j];
      }
    }
  }
}
